=== FILE: README.md ===
# Account credentials and seller order views, modelled in Dafny

This project models two services of an e-commerce back end.

The first is the user service's account-credential lifecycle:
- self-registration gated by email verification;
- password change;
- password reset, both self-service and administrator-scoped;
- account creation and update by an administrator;
- deletion, and register-and-issue-token;
- the bookkeeping of login outcomes that drives the lockout.

The store of accounts is a finite map from id to an immutable `Account`
record. Every operation is a pure function from the store, its inputs and
its environment (`now`, a fresh random token, whether the mail went out)
to its outcome (`Ok | Conflict | NotFound | Unauthorized | BadRequest |
InternalError`) and the new store, together a `Step`. Two operations
return something else. The login bookkeeping returns only the new
store, since the code reports no outcome. Register-and-issue-token
returns a `Registration`, which adds the claims of the session token.

The second is the order service's pure aggregation and filtering rules:
- the seller's view of all orders, holding only the seller's own items and
  their total;
- the single-order seller view;
- the per-user status queries;
- the recent-orders query;
- the status update.

These are modelled over an in-memory sequence of orders in store order.

Files:
- `common.dfy`: module `Common`. It holds `Option`, the outcome type,
  document ids (`Id`), the least element of a set, ASCII lower-casing and
  case-insensitive equality (`EqualsIgnoringCase`), the UTF-16 length of
  a string (`Utf16Length`) and an order-preserving `Filter`.
- `accounts.dfy`: module `Accounts`. It holds the account document, the
  store, the `findOne` lookups and the account invariants.
- `user_service.dfy`: module `UserService`. It holds the operations.
- `user_scenarios.dfy`: module `UserScenarios`. It holds properties that
  span several calls.
- `orders.dfy`: module `Orders`. It holds the seller views, the status
  filters and the status update.
- `order_recency.dfy`: module `OrderRecency`. It holds the recent-orders
  query.

Modelling choices:
- `findOne` with several matching documents returns the one with the least
  id. The store's natural order is unspecified, and the least id fixes
  one deterministic choice. Ids are supplied by the caller, so the least
  id need not be the oldest document.
- Hashing is symbolic. `Hash(pw)` wraps the password, and
  `bcrypt.compare` becomes `Hash(pw) == stored`.
- The random tokens are non-empty strings supplied by the caller.
- A new account's id is supplied by the caller and must not be in use yet.
- Fields a creating call does not set come from a `Defaults` input,
  because the schema is not part of this model. These are the role when
  the payload has none, and `isActive` on administrator creation.
  The failure count, the lock and the reset fields start absent.
- `loginAttempts` is optional. A missing count reads as zero, as
  `loginAttempts || 0` does.
- `toLowerCase` is modelled on ASCII letters.
- A password's `length` counts UTF-16 code units (`Utf16Length`): a
  character outside the Basic Multilingual Plane counts twice.
- Prices and quantities are integers.

Quirks of the code the model keeps:
- Re-registering an unverified account always ends in `InternalError`,
  not in a conflict. The conflict thrown after the resend is caught
  (src/user/user.service.ts:107-116) and rewrapped again (:159).
- The duplicate checks compare the email exactly as given. Registration
  stores it lower-cased, and administrator creation stores it as given.
  So an upper-case variant of a stored email yields a second account
  with the same stored email (`CaseVariantDuplicates`).
- A reset request stores the token only after the mail went out. A failed
  send leaves the store unchanged.
- A password change does not clear an outstanding reset token
  (`ResetTokenSurvivesPasswordChange`).
- Both partial updates, the administrator's and the self-service
  `PATCH /user/:id` (src/user/user.controller.ts:125-136), write whatever
  fields the payload holds. So an account holder can set its own `role`
  and `isVerified`, and either update can mark an account verified while
  its verification token is outstanding (`AdminUpdateCanVerifyPending`).
  The payload type is not part of this model, so the modelled `Patch`
  fields are an assumption. These two updates are guaranteed to keep
  the account invariants (`Consistent`) whenever the patch does not set
  `isVerified` to true. A patch setting it to true on an account with a
  pending token breaks `VerifiedClean` (`AdminUpdateCanVerifyPending`).
  Every other operation keeps the invariants unconditionally.

## Model

| member | source | states |
|---|---|---|
| Common.ToLower | src/user/user.service.ts:129 | the lower-cased email has the input's length and folds every character |
| Common.ToLowerIdempotent | src/user/user.service.ts:275 | lower-casing yields a lower-case string and is idempotent, so a stored lower-cased email is found by the lower-cased lookup |
| Common.Utf16Length | src/user/user.service.ts:436 | a string's JavaScript length lies between its character count and twice that, and equals the character count when every character is in the Basic Multilingual Plane |
| Common.Filter | src/orders/orders.service.ts:291-295 | the filtered list holds exactly the elements satisfying the test and is no longer than the input |
| Common.FilterAppend | src/orders/orders.service.ts:288-315 | filtering commutes with concatenation, so kept elements stay in input order |
| Common.FilterCount | src/orders/orders.service.ts:291-295 | each satisfying element is kept as often as it occurs, every other one is dropped |
| Accounts.FindFirst | src/user/user.service.ts:88-91 | a lookup returns a matching account with no matching account before it, and returns none exactly when no account matches |
| Accounts.Apply | src/user/user.service.ts:216-222 | a partial update sets each of email, name, role, isActive and isVerified to the patch's value when present and keeps it otherwise; every other field, including the credentials, tokens, lockout and last login, is kept; an empty patch changes nothing |
| UserService.CreateNewUser | src/user/user.service.ts:86-161 | a verified holder of the exact email gives Conflict and no change; an unverified holder always gives InternalError and gets the fresh token only if the mail went out; a free email gives, exactly when the mail went out, a new unverified, inactive account with the lower-cased email, the payload's name, the payload's role or else the default role, the token, and no reset, failure count, lock or last login, else InternalError and no change; invariants kept |
| UserService.VerifyEmail | src/user/user.service.ts:164-194 | a non-empty token wins: Ok exactly when some account holds it, which then becomes verified with its token cleared, nothing else changes; otherwise NotFound with no change; the email branch is read-only and gives NotFound, Unauthorized or Ok by existence and verification; neither input gives BadRequest |
| UserService.UpdateUserPassword | src/user/user.service.ts:236-272 | NotFound, then Unauthorized on a wrong old password, then BadRequest when old equals new; on success only the hash changes, the new password matches and the old one no longer does |
| UserService.IssueReset | src/user/user.service.ts:281-293 | a miss is Ok with no change; a hit with a failed send is InternalError with no change; otherwise token and expiry now+3600000 are stored together, live for exactly the next hour |
| UserService.InitiatePasswordReset | src/user/user.service.ts:274-294 | lookup by the lower-cased email; an unknown email is Ok with no change; InternalError exactly when an account matched and the send failed; a match with the mail sent is Ok, and that account then differs only in its reset token and an expiry one hour ahead, so the token is live; no other account changes |
| UserService.InitiateAdminPasswordReset | src/user/user.service.ts:391-420 | as the self-service request but only an administrator account matches; a non-administrator email is Ok with no change; a match with the mail sent is Ok, and the administrator's account then differs only in its reset token and expiry |
| UserService.ResetPassword | src/user/user.service.ts:296-316 | Ok exactly when some account holds the token unexpired, else Unauthorized with no change; on success the new password matches, both reset fields are cleared, the failure count is 0 and the lock is lifted, and every other field of that account and every other account is kept |
| UserService.AdminResetPassword | src/user/user.service.ts:422-451 | NotFound exactly when no administrator holds the token unexpired; BadRequest with no change for a password under 8 UTF-16 code units; on success the password is replaced and the reset fields cleared, and every other field, the failure count and lock included, is kept |
| UserService.CreateUserByAdmin | src/user/user.service.ts:318-355 | Unauthorized unless the caller is an administrator, then Conflict on an existing exact email, with no change on failure; otherwise a new verified account under the email and name as given, with the payload's role or else the default role, the default isActive, and no reset, failure count, lock or last login |
| UserService.UpdateUserById | src/user/user.service.ts:211-235 | NotFound with no change for a missing id; otherwise that account becomes the patch applied to it and no other account changes; invariants kept whenever the patch does not set isVerified to true |
| UserService.UpdateUserByAdmin | src/user/user.service.ts:357-390 | Unauthorized unless the caller is an administrator, then NotFound for a missing target, with no change on failure; otherwise the target becomes the patch applied to it and no other account changes |
| UserService.DeleteUser | src/user/user.service.ts:197-209 | NotFound for a missing id; otherwise exactly that account is removed |
| UserService.UpdateLoginStats | src/user/user.service.ts:453-469 | an unknown id is a no-op; success zeroes the count, lifts the lock and records now; failure adds one to the count (missing reads as 0) and sets the lock to now+1800000 exactly when the count reaches 5, else keeps it, and changes no other field |
| UserService.RegisterUserOnAnyWebsite | src/user/user.service.ts:471-547 | a missing signing secret is InternalError; an existing exact email is Conflict; otherwise a new active, verified account under the email and name as given, with the payload's role or else the default role and no token, reset, failure count, lock or last login; the session token's claims are the stored account's email, id, role, isActive and name |
| UserScenarios.VerifyTokenTwice | src/user/user.service.ts:164-175 | confirming a uniquely held verification token verifies its holder, and confirming it again gives NotFound |
| UserScenarios.RegisterThenVerify | src/user/user.service.ts:121-175 | a fresh registration followed by confirming the mailed token leaves a verified account with the lower-cased email and no token |
| UserScenarios.ResetRoundTrip | src/user/user.service.ts:274-316 | a reset request followed within the hour by confirming the mailed token replaces the password, clears the token, lifts the lockout, and the token is refused afterwards |
| UserScenarios.AdminResetRetry | src/user/user.service.ts:422-451 | a too-short administrator reset is refused with the token left live, and a retry with 8 or more characters succeeds, leaving the lockout fields as they were |
| UserScenarios.ExpiredTokenLikeUnknown | src/user/user.service.ts:296-306 | an expired reset token gets the same outcome as a never-issued one, on both paths (Unauthorized for users, NotFound for administrators) |
| UserScenarios.PasswordChangeUndo | src/user/user.service.ts:236-261 | after a change the old password is refused; changing back succeeds, the old password matches again and every other field of every account is as before |
| UserScenarios.AstralPasswordAccepted | src/user/user.service.ts:436 | the administrator reset accepts four characters outside the Basic Multilingual Plane, eight UTF-16 code units |
| UserScenarios.ResetTokenSurvivesPasswordChange | src/user/user.service.ts:258-261 | a password change keeps an outstanding reset token live and usable |
| UserScenarios.FailedLogins | src/user/user.service.ts:461-466 | a run of failed logins keeps the set of accounts |
| UserScenarios.FailuresAccumulate | src/user/user.service.ts:461-466 | n failures add n to the count, change no other account, and once the count reaches 5 the lock ends 30 minutes after the last failure |
| UserScenarios.LockoutAndRecovery | src/user/user.service.ts:457-466 | five failures lock a clean account, and a later successful login zeroes the count and lifts the lock |
| UserScenarios.CaseVariantDuplicates | src/user/user.service.ts:88-134 | registering an upper-case variant of a stored lower-case email succeeds and yields two accounts with the same stored email |
| UserScenarios.AdminUpdateCanVerifyPending | src/user/user.service.ts:368-374 | the administrator update can verify an account that still carries a verification token, breaking that invariant |
| UserScenarios.ResetRequestHidesExistence | src/user/user.service.ts:274-279 | with the mail up, a reset request reports the same outcome for a known and an unknown email, and the unknown one changes nothing |
| Orders.ReduceIsSum | src/orders/orders.service.ts:300-303 | the left-to-right accumulation of price times quantity equals the reference total |
| Orders.SellerView | src/orders/orders.service.ts:288-313 | present exactly when the order has one of the seller's items; then its items are exactly those items in order, its total is their sum, and id, customer, status and address are the order's |
| Orders.GetSellerOrders | src/orders/orders.service.ts:276-321 | every entry holds only the seller's items, at least one, with their sum as total; every order with seller items has its view listed and every entry comes from an order |
| Orders.SellerOrdersAreViews | src/orders/orders.service.ts:288-315 | the seller list is exactly the views of the orders holding seller items, one per order, in store order |
| Orders.GetSellerOrderById | src/orders/orders.service.ts:323-369 | fails with a generic error, never NotFound, when the order is missing or has no seller items; a found entry is the one the seller list holds for that order |
| Orders.SellerListAgreesWithById | src/orders/orders.service.ts:323-365 | with unique order ids, every entry of the seller list is what the single-order query returns for its id |
| Orders.IndexOf | src/orders/orders.service.ts:325-336 | the found position holds the id and no earlier one does; none exactly when no order has the id |
| Orders.FindAllExceptCancelled | src/orders/orders.service.ts:63-76 | exactly the user's orders whose status is not cancelled |
| Orders.FindUserOrdersByStatus | src/orders/orders.service.ts:45-60 | exactly the user's orders with the given status |
| Orders.CancelledSplit | src/orders/orders.service.ts:45-76 | the active orders and the cancelled orders of a user together number exactly the user's orders |
| Orders.GetUserCompletedOrders | src/orders/orders.service.ts:371-392 | exactly the user's orders whose whole status is completed or delivered, ignoring case |
| Orders.CompletedStatusWords | src/orders/orders.service.ts:377 | a status is completed exactly when its lower-cased form is "completed" or "delivered", optionally followed by one line feed |
| Orders.UpdateStatus | src/orders/orders.service.ts:174-192 | Ok exactly when the id exists; only that order's status changes; a missing id gives InternalError with no change |
| Orders.UpdateStatusUndo | src/orders/orders.service.ts:174-186 | setting back the previous status restores the orders, and repeating an update changes nothing more |
| Orders.UpdatedOrderFoundByStatus | src/orders/orders.service.ts:174-186 | after an update the order is returned by its owner's status query for the new status |
| OrderRecency.Insert | src/orders/orders.service.ts:198 | inserting into a newest-first list keeps it newest first and adds exactly the one order |
| OrderRecency.SortByDateDesc | src/orders/orders.service.ts:198 | the result is newest first and a permutation of the input |
| OrderRecency.PrefixIsNewest | src/orders/orders.service.ts:198-199 | cutting a newest-first list after n entries leaves out no order newer than one kept |
| OrderRecency.FindRecent | src/orders/orders.service.ts:195-206 | as many orders as the limit allows, newest first, drawn from the input, and no order left out is newer than one returned |

## Left out

- Persistence failures. Every `save`, `findById` and `findByIdAndUpdate`
  is taken to succeed, so the code's rewrapping of store errors into a
  generic error is not modelled. This includes a unique-index violation
  and an id that is not a valid object id.
- Concurrency. The code reads, then writes, without atomicity, so the
  model's calls are sequential and no exactly-one-wins property is claimed.
- Mail delivery is a boolean outcome. The transport and the templates are
  left out. `RegisterUserOnAnyWebsite` ignores a failed welcome mail, as
  the code does.
- bcrypt and the random source. The hash is a symbolic, deterministic
  wrapper with no salt and no one-wayness. Tokens are caller-supplied, and
  no entropy property is claimed.
- UserService.UpdateUserPassword: "the old password no longer matches"
  rests on the symbolic hash being injective. bcrypt compares only the
  first 72 bytes, so two passwords sharing those bytes both match and
  the code would not refuse the old one.
- UserScenarios.PasswordChangeUndo: "the old password is refused after
  the change" rests on the same injectivity. The restored hash is
  freshly salted in the code, so only its match with the old password,
  not the stored digest itself, is claimed.
- JWT signing and the 3-day expiry. Only the claims record of the
  register-and-issue-token path is modelled. The signing secret is
  reduced to whether it is configured.
- The lockout gate at login. It lives in the authentication service,
  which is not part of this model. The user service only records outcomes.
- `ToLower`: only ASCII letters are folded. Unicode case mapping is not
  modelled.
- `Orders.IsCompletedStatus`: ASCII case-insensitivity only. It models the
  document store's pattern engine, whose `$` also matches before one final
  line feed.
- `Orders.Cancelled`: the order-status schema is not part of this model,
  so the stored string of the `CANCELLED` member is taken as
  `"cancelled"`. No property depends on its spelling.
- Floating-point prices. Prices and quantities are integers.
- `OrderRecency.FindRecent`: among orders with equal dates the store's
  order is unspecified, and the model fixes one arrangement.
- Population of referenced documents (`populate`), `.lean()` and field
  projection. The seller view's `customer` is the user id.
- The other order operations (`create`, `findByUserId`, `findAll`,
  `findByStatus`, `findById`, `updateById`, `deleteById`,
  `createOrderByAdmin`, `updateOrderByAdmin`) and the user getters
  (`getAllUsers`, `getUserById`, `getUserByEmail`, `getUsersByRole`).
  They are plain queries with no rule beyond the lookup.
- `Accounts.Patch` covers email, name, role, isActive and isVerified. The
  update payload's full field list is not part of this model.
- Controllers, module wiring and rate limiting are routing configuration.

=== FILE: accounts.dfy ===
/** The account document kept by the user service, the store of all
    accounts, and the lookups the service performs on it. */
module Accounts {
  import opened Common

  /** Wall-clock time in milliseconds since the epoch. */
  type Millis = int

  /** A random opaque token: 32 random bytes rendered as hexadecimal,
      so never the empty string. */
  type Token = s: string | |s| > 0 witness "0"

  datatype Role = Customer | Seller | Admin

  /** A stored password hash. Hashing is symbolic: the hash of a password
      is a tag wrapping it, and verification compares tags. */
  datatype Digest = Digest(secret: string)

  function Hash(password: string): Digest {
    Digest(password)
  }

  /** `bcrypt.compare(password, stored)`. */
  predicate PasswordMatches(password: string, stored: Digest) {
    Hash(password) == stored
  }

  datatype Account = Account(
    email: string,
    name: string,
    passwordHash: Digest,
    role: Role,
    isVerified: bool,
    isActive: bool,
    verificationToken: Option<string>,
    resetPasswordToken: Option<string>,
    resetPasswordExpires: Option<Millis>,
    loginAttempts: Option<nat>,
    lockUntil: Option<Millis>,
    lastLoginAt: Option<Millis>)

  type Store = map<Id, Account>

  /** A call's outcome together with the store it leaves behind. */
  datatype Step = Step(result: Result, store: Store)

  /** The registration payload (`CreateUserDto`): the fields the service
      reads or copies into a new document. */
  datatype NewUser = NewUser(email: string, password: string, name: string, role: Option<Role>)

  /** Values the document schema supplies for fields a creating call does
      not set. The schema is not part of this model, so they are inputs. */
  datatype Defaults = Defaults(role: Role, isActive: bool)

  /** A partial update (`Partial<UpdateUserDto>`): each present field
      overwrites the stored one. */
  datatype Patch = Patch(
    email: Option<string>,
    name: Option<string>,
    role: Option<Role>,
    isActive: Option<bool>,
    isVerified: Option<bool>)

  function Apply(a: Account, p: Patch): (b: Account)
    ensures b.passwordHash == a.passwordHash
    ensures b.verificationToken == a.verificationToken
    ensures b.resetPasswordToken == a.resetPasswordToken
    ensures b.resetPasswordExpires == a.resetPasswordExpires
    ensures b.loginAttempts == a.loginAttempts && b.lockUntil == a.lockUntil
    ensures p.email.Some? ==> b.email == p.email.value
    ensures p.email.None? ==> b.email == a.email
    ensures p.role.Some? ==> b.role == p.role.value
    ensures p.role.None? ==> b.role == a.role
    ensures p.isVerified.Some? ==> b.isVerified == p.isVerified.value
    ensures p.isVerified.None? ==> b.isVerified == a.isVerified
    ensures p.name.Some? ==> b.name == p.name.value
    ensures p.name.None? ==> b.name == a.name
    ensures p.isActive.Some? ==> b.isActive == p.isActive.value
    ensures p.isActive.None? ==> b.isActive == a.isActive
    ensures b.lastLoginAt == a.lastLoginAt
    // only the patchable fields can differ
    ensures b.(email := a.email, name := a.name, role := a.role,
               isActive := a.isActive, isVerified := a.isVerified) == a
    ensures p == Patch(None, None, None, None, None) ==> b == a
  {
    a.(email := if p.email.Some? then p.email.value else a.email,
       name := if p.name.Some? then p.name.value else a.name,
       role := if p.role.Some? then p.role.value else a.role,
       isActive := if p.isActive.Some? then p.isActive.value else a.isActive,
       isVerified := if p.isVerified.Some? then p.isVerified.value else a.isVerified)
  }

  /** `findOne(filter)`: the first account, in id order, that satisfies
      the filter. */
  function FindFirst(store: Store, filter: Account -> bool): (r: Option<Id>)
    ensures r.Some? ==> r.value in store && filter(store[r.value])
    ensures r.Some? ==> forall k :: k in store && k < r.value ==> !filter(store[k])
    ensures r.None? <==> forall k :: k in store ==> !filter(store[k])
  {
    var hits := set k | k in store && filter(store[k]);
    assert forall k :: k in store && filter(store[k]) ==> k in hits;
    if hits == {} then None else Some(Least(hits))
  }

  /** `findOne({ email })`: an exact, case-sensitive match. */
  function ByEmail(store: Store, email: string): Option<Id> {
    FindFirst(store, (a: Account) => a.email == email)
  }

  /** `findOne({ email, role: 'admin' })`. */
  function AdminByEmail(store: Store, email: string): Option<Id> {
    FindFirst(store, (a: Account) => a.email == email && a.role == Admin)
  }

  /** `findOne({ verificationToken: token })`. */
  function ByVerificationToken(store: Store, token: string): Option<Id> {
    FindFirst(store, (a: Account) => a.verificationToken == Some(token))
  }

  /** The reset token `token` is outstanding on `a` and has not expired:
      `resetPasswordToken == token && resetPasswordExpires > now`. */
  predicate LiveResetToken(a: Account, token: string, now: Millis) {
    a.resetPasswordToken == Some(token)
    && a.resetPasswordExpires.Some? && a.resetPasswordExpires.value > now
  }

  function ByLiveResetToken(store: Store, token: string, now: Millis): Option<Id> {
    FindFirst(store, (a: Account) => LiveResetToken(a, token, now))
  }

  function AdminByLiveResetToken(store: Store, token: string, now: Millis): Option<Id> {
    FindFirst(store, (a: Account) => LiveResetToken(a, token, now) && a.role == Admin)
  }

  /** `findById(id)` followed by `role === 'admin'`. */
  predicate IsAdmin(store: Store, id: Id) {
    id in store && store[id].role == Admin
  }

  /** Some account holds exactly this email. */
  predicate EmailTaken(store: Store, email: string) {
    exists k :: k in store && store[k].email == email
  }

  // Invariants the credential flows keep.

  /** The reset token and its expiry are set and cleared together. */
  predicate ResetPaired(a: Account) {
    a.resetPasswordToken.Some? <==> a.resetPasswordExpires.Some?
  }

  /** A verified account carries no outstanding verification token. */
  predicate VerifiedClean(a: Account) {
    a.isVerified ==> a.verificationToken.None?
  }

  /** Five or more recorded failures come with a lock time. */
  predicate LockRecorded(a: Account) {
    a.loginAttempts.Some? && a.loginAttempts.value >= 5 ==> a.lockUntil.Some?
  }

  predicate WellFormed(a: Account) {
    ResetPaired(a) && VerifiedClean(a) && LockRecorded(a)
  }

  predicate Consistent(store: Store) {
    forall k :: k in store ==> WellFormed(store[k])
  }

  /** The accounts other than `id` are untouched and none appear or vanish. */
  predicate OnlyChanged(store: Store, store': Store, id: Id) {
    store'.Keys == store.Keys
    && forall k :: k in store && k != id ==> store'[k] == store[k]
  }
}

=== FILE: common.dfy ===
/** Shared vocabulary of the model: optional values, the closed set of
    outcomes a service call can end in, and small sequence/set helpers. */
module Common {

  /** A value that may be absent (a document field left `undefined`). */
  datatype Option<+T> = None | Some(value: T)

  /** The outcome of one service call. Each variant stands for the HTTP
      exception class the service throws; a plain `Error` surfaces as
      `InternalError`. */
  datatype Result = Ok | Conflict | NotFound | Unauthorized | BadRequest | InternalError

  /** Document ids. A creating call receives the new id from its caller;
      `nat` gives ids an order, which fixes the order a lookup visits
      documents in. */
  type Id = nat

  /** The least element of a non-empty finite set of naturals. */
  function Least(s: set<nat>): (m: nat)
    requires s != {}
    ensures m in s
    ensures forall j :: j in s ==> m <= j
  {
    LeastExists(s);
    var m :| m in s && forall j :: j in s ==> m <= j; m
  }

  lemma {:induction false} LeastExists(s: set<nat>)
    requires s != {}
    ensures exists m :: m in s && forall j :: j in s ==> m <= j
  {
    var x :| x in s;
    if !(forall j :: j in s ==> x <= j) {
      var y :| y in s && y < x;
      assert y in s - {x};
      LeastExists(s - {x});
      var m :| m in s - {x} && forall j :: j in s - {x} ==> m <= j;
      forall j | j in s
        ensures m <= j
      {
        if j != x {
          assert j in s - {x};
        }
      }
    }
  }

  /** ASCII case folding of one character, as `toLowerCase` does on A-Z. */
  function LowerChar(c: char): (d: char)
    ensures 'A' <= c <= 'Z' ==> 'a' <= d <= 'z'
    ensures !('A' <= c <= 'Z') ==> d == c
    ensures !('A' <= d <= 'Z')
  {
    if 'A' <= c <= 'Z' then (c as int - 'A' as int + 'a' as int) as char else c
  }

  /** `String.prototype.toLowerCase`, restricted to ASCII letters. */
  function ToLower(s: string): (r: string)
    ensures |r| == |s|
    ensures forall i :: 0 <= i < |s| ==> r[i] == LowerChar(s[i])
  {
    if s == [] then [] else [LowerChar(s[0])] + ToLower(s[1..])
  }

  /** Lower-casing a string with a final character. */
  lemma {:induction false} ToLowerLast(s: string)
    requires |s| > 0
    ensures ToLower(s) == ToLower(s[..|s| - 1]) + [LowerChar(s[|s| - 1])]
  {
    if |s| > 1 {
      ToLowerLast(s[1..]);
      assert s[1..][..|s| - 2] == s[..|s| - 1][1..];
    }
  }

  /** A string with no upper-case ASCII letter. */
  predicate IsLower(s: string) {
    forall i :: 0 <= i < |s| ==> !('A' <= s[i] <= 'Z')
  }

  /** Lower-casing yields a lower-case string, and leaves one unchanged. */
  lemma ToLowerIdempotent(s: string)
    ensures IsLower(ToLower(s))
    ensures ToLower(ToLower(s)) == ToLower(s)
    ensures IsLower(s) ==> ToLower(s) == s
  {
  }

  /** `String.prototype.length`: the number of UTF-16 code units, so a
      character outside the Basic Multilingual Plane counts twice. */
  function Utf16Length(s: string): (n: nat)
    ensures |s| <= n <= 2 * |s|
    ensures (forall i :: 0 <= i < |s| ==> s[i] as int <= 0xFFFF) ==> n == |s|
  {
    if s == [] then 0 else (if s[0] as int > 0xFFFF then 2 else 1) + Utf16Length(s[1..])
  }

  /** Case-insensitive equality on ASCII letters (a regular expression
      with the `i` flag compares characters this way). */
  predicate EqualsIgnoringCase(a: string, b: string) {
    ToLower(a) == ToLower(b)
  }

  /** The elements of `s` that satisfy `p`, in their original order
      (`Array.prototype.filter`, and a query filter over a collection). */
  function Filter<T(!new)>(s: seq<T>, p: T -> bool): (r: seq<T>)
    ensures |r| <= |s|
    ensures forall x :: x in r <==> x in s && p(x)
  {
    if s == [] then []
    else
      var rest := Filter(s[1..], p);
      assert s == [s[0]] + s[1..];
      if p(s[0]) then [s[0]] + rest else rest
  }

  /** Filtering keeps every satisfying element as often as the input holds
      it, and drops all others. */
  lemma {:induction false} FilterCount<T(!new)>(s: seq<T>, p: T -> bool, x: T)
    ensures multiset(Filter(s, p))[x] == if p(x) then multiset(s)[x] else 0
  {
    if s != [] {
      assert s == [s[0]] + s[1..];
      FilterCount(s[1..], p, x);
    }
  }

  /** Filtering commutes with concatenation: the relative order of the
      kept elements is the order of the input. */
  lemma {:induction false} FilterAppend<T(!new)>(a: seq<T>, b: seq<T>, p: T -> bool)
    ensures Filter(a + b, p) == Filter(a, p) + Filter(b, p)
  {
    if a == [] {
      assert a + b == b;
    } else {
      assert (a + b)[0] == a[0];
      assert (a + b)[1..] == a[1..] + b;
      FilterAppend(a[1..], b, p);
    }
  }
}

=== FILE: order_recency.dfy ===
/** The recent-orders query: all orders sorted by order date, newest
    first, cut to a limit. */
module OrderRecency {
  import opened Common
  import opened Orders

  /** Page size when the caller gives no limit. */
  const DefaultLimit: nat := 10

  /** Newest first. */
  predicate SortedDesc(s: seq<Order>) {
    forall i, j :: 0 <= i < j < |s| ==> s[i].orderDate >= s[j].orderDate
  }

  /** Places `x` in a newest-first sequence, before the first entry that is
      not newer than it. */
  function Insert(x: Order, s: seq<Order>): (r: seq<Order>)
    requires SortedDesc(s)
    ensures SortedDesc(r)
    ensures multiset(r) == multiset(s) + multiset{x}
    ensures forall y :: y in r ==> y == x || y in s
  {
    if s == [] || x.orderDate >= s[0].orderDate then
      [x] + s
    else
      var t := Insert(x, s[1..]);
      assert s == [s[0]] + s[1..];
      assert forall y :: y in t ==> y.orderDate <= s[0].orderDate;
      [s[0]] + t
  }

  /** A newest-first arrangement of the orders. */
  function SortByDateDesc(s: seq<Order>): (r: seq<Order>)
    ensures SortedDesc(r)
    ensures multiset(r) == multiset(s)
  {
    if s == [] then []
    else
      assert s == [s[0]] + s[1..];
      Insert(s[0], SortByDateDesc(s[1..]))
  }

  /** How many orders a query `limit(l)` returns at most, given `n` orders:
      no limit means the default page, a zero limit means all, and a
      negative limit counts like its absolute value. */
  function Cap(limit: Option<int>, n: nat): (c: nat)
    ensures c <= n
    ensures limit.None? ==> c == if n < DefaultLimit then n else DefaultLimit
    ensures limit.Some? && limit.value == 0 ==> c == n
    ensures limit.Some? && limit.value != 0 ==>
              c == if n < Abs(limit.value) then n else Abs(limit.value)
  {
    var l := if limit.None? then DefaultLimit else if limit.value == 0 then n else Abs(limit.value);
    if n < l then n else l
  }

  function Abs(x: int): nat {
    if x < 0 then -x else x
  }

  /** Cutting a newest-first arrangement after `n` entries leaves out
      nothing newer than what it keeps. */
  lemma PrefixIsNewest(sorted: seq<Order>, n: nat)
    requires SortedDesc(sorted) && n <= |sorted|
    ensures forall x, y :: x in sorted[..n] && multiset(sorted[..n])[y] < multiset(sorted)[y]
              ==> y.orderDate <= x.orderDate
  {
    var r := sorted[..n];
    var rest := sorted[n..];
    assert sorted == r + rest;
    forall x, y | x in r && multiset(r)[y] < multiset(sorted)[y]
      ensures y.orderDate <= x.orderDate
    {
      assert multiset(sorted) == multiset(r) + multiset(rest);
      assert y in rest;
      var i :| 0 <= i < |r| && r[i] == x;
      var j :| 0 <= j < |rest| && rest[j] == y;
      assert sorted[i] == x && sorted[n + j] == y;
    }
  }

  /** `findRecent(limit = 10)`: the newest orders. The returned orders are
      newest first, drawn from the input, as many as the limit allows, and
      no order left out is newer than one returned. */
  function FindRecent(orders: seq<Order>, limit: Option<int>): (r: seq<Order>)
    ensures |r| == Cap(limit, |orders|)
    ensures SortedDesc(r)
    ensures multiset(r) <= multiset(orders)
    ensures forall x, y :: x in r && multiset(r)[y] < multiset(orders)[y] ==> y.orderDate <= x.orderDate
  {
    var sorted := SortByDateDesc(orders);
    var n := Cap(limit, |orders|);
    assert |sorted| == |orders| by {
      assert |multiset(sorted)| == |multiset(orders)|;
    }
    PrefixIsNewest(sorted, n);
    assert sorted == sorted[..n] + sorted[n..];
    assert multiset(sorted) == multiset(sorted[..n]) + multiset(sorted[n..]);
    sorted[..n]
  }
}

=== FILE: orders.dfy ===
/** The order queries of the order service, over an in-memory sequence of
    orders in store order: the seller's view of orders (only the seller's
    own items, with their total), the per-user status filters, and the
    status update. */
module Orders {
  import opened Common

  /** A populated product reference: the seller it belongs to (possibly
      missing) and its unit price. */
  datatype Product = Product(sellerId: Option<Id>, price: int)

  /** An order line; `product` is absent when the reference did not
      resolve (or, under the seller-scoped population, belongs to someone
      else). */
  datatype Item = Item(product: Option<Product>, quantity: int)

  datatype Order = Order(
    id: Id,
    userId: Id,
    items: seq<Item>,
    orderStatus: string,
    orderDate: int,
    shippingAddress: string)

  /** One entry of the seller's order list. */
  datatype SellerOrder = SellerOrder(
    orderId: Id,
    customer: Id,
    items: seq<Item>,
    orderStatus: string,
    sellerTotalPrice: int,
    shippingAddress: string)

  /** The outcome of a query that can fail. */
  datatype Lookup<T> = Found(value: T) | Failed(error: Result)

  /** The outcome of an update, with the orders it leaves behind. */
  datatype OrderStep = OrderStep(result: Result, orders: seq<Order>)

  /** The `CANCELLED` member of the order-status enumeration. */
  const Cancelled: string := "cancelled"

  // ---------------------------------------------------------------------
  // Seller view

  /** The item's product is present and belongs to the seller. */
  predicate SellsItem(sellerId: Id, item: Item) {
    item.product.Some? && item.product.value.sellerId == Some(sellerId)
  }

  function SellerItems(items: seq<Item>, sellerId: Id): seq<Item> {
    Filter(items, (i: Item) => SellsItem(sellerId, i))
  }

  predicate HasSellerItems(o: Order, sellerId: Id) {
    exists i :: 0 <= i < |o.items| && SellsItem(sellerId, o.items[i])
  }

  /** The orders worth listing for the seller, as a filter. */
  function ForSeller(sellerId: Id): Order -> bool {
    (o: Order) => HasSellerItems(o, sellerId)
  }

  /** The amount one line contributes: unit price times quantity. */
  function LineTotal(item: Item): int {
    if item.product.Some? then item.product.value.price * item.quantity else 0
  }

  /** Reference total of a list of lines, summed from the right. */
  function Sum(items: seq<Item>): int {
    if items == [] then 0 else LineTotal(items[0]) + Sum(items[1..])
  }

  /** `items.reduce((total, item) => total + price * quantity, acc)`: the
      left-to-right accumulation the service performs. */
  function Reduce(items: seq<Item>, acc: int): int
    decreases |items|
  {
    if items == [] then acc else Reduce(items[1..], acc + LineTotal(items[0]))
  }

  /** The accumulation computes the reference total. */
  lemma {:induction false} ReduceIsSum(items: seq<Item>, acc: int)
    ensures Reduce(items, acc) == acc + Sum(items)
    decreases |items|
  {
    if items != [] {
      ReduceIsSum(items[1..], acc + LineTotal(items[0]));
    }
  }

  /** The seller's view of one order, absent when none of its items is the
      seller's. */
  function SellerView(o: Order, sellerId: Id): (v: Option<SellerOrder>)
    ensures v.Some? <==> HasSellerItems(o, sellerId)
    ensures v.Some? ==>
              && v.value.orderId == o.id && v.value.customer == o.userId
              && v.value.orderStatus == o.orderStatus && v.value.shippingAddress == o.shippingAddress
              && v.value.items == SellerItems(o.items, sellerId)
              && |v.value.items| > 0
              && (forall it :: it in v.value.items <==> it in o.items && SellsItem(sellerId, it))
              && v.value.sellerTotalPrice == Sum(v.value.items)
  {
    var items := SellerItems(o.items, sellerId);
    if |items| == 0 then
      assert forall i :: 0 <= i < |o.items| ==> o.items[i] in o.items;
      None
    else
      ReduceIsSum(items, 0);
      var w :| w in items;
      assert exists i :: 0 <= i < |o.items| && o.items[i] == w;
      Some(SellerOrder(o.id, o.userId, items, o.orderStatus, Reduce(items, 0), o.shippingAddress))
  }

  /** `getSellerOrders`: one entry per order holding at least one of the
      seller's items, in store order. */
  function GetSellerOrders(orders: seq<Order>, sellerId: Id): (r: seq<SellerOrder>)
    ensures |r| <= |orders|
    ensures forall x :: x in r ==> |x.items| > 0 && x.sellerTotalPrice == Sum(x.items)
    ensures forall x :: x in r ==> forall it :: it in x.items ==> SellsItem(sellerId, it)
    ensures forall o :: o in orders && HasSellerItems(o, sellerId) ==> SellerView(o, sellerId).value in r
    ensures forall x :: x in r ==> exists o :: o in orders && SellerView(o, sellerId) == Some(x)
  {
    if orders == [] then []
    else
      var rest := GetSellerOrders(orders[1..], sellerId);
      assert forall o :: o in orders ==> o == orders[0] || o in orders[1..];
      match SellerView(orders[0], sellerId)
      case None => rest
      case Some(v) => [v] + rest
  }

  /** The seller's entries of the orders that hold seller items, in order. */
  function Views(orders: seq<Order>, sellerId: Id): seq<SellerOrder>
    requires forall o :: o in orders ==> HasSellerItems(o, sellerId)
  {
    seq(|orders|, i requires 0 <= i < |orders| => SellerView(orders[i], sellerId).value)
  }

  /** Views of an order list with one more order in front. */
  lemma ViewsCons(o: Order, k: seq<Order>, sellerId: Id)
    requires HasSellerItems(o, sellerId)
    requires forall x :: x in k ==> HasSellerItems(x, sellerId)
    ensures Views([o] + k, sellerId) == [SellerView(o, sellerId).value] + Views(k, sellerId)
  {
    var v := SellerView(o, sellerId).value;
    forall i | 0 <= i < |k| + 1
      ensures Views([o] + k, sellerId)[i] == ([v] + Views(k, sellerId))[i]
    {
      if i > 0 {
        assert ([o] + k)[i] == k[i - 1];
      }
    }
  }

  /** The seller list is exactly the seller views of the orders that hold
      seller items, one per such order and in the same order. */
  lemma {:induction false} SellerOrdersAreViews(orders: seq<Order>, sellerId: Id)
    ensures GetSellerOrders(orders, sellerId) == Views(Filter(orders, ForSeller(sellerId)), sellerId)
  {
    if orders != [] {
      var p := ForSeller(sellerId);
      var o := orders[0];
      var k := Filter(orders[1..], p);
      SellerOrdersAreViews(orders[1..], sellerId);
      if HasSellerItems(o, sellerId) {
        assert Filter(orders, p) == [o] + k;
        ViewsCons(o, k, sellerId);
      } else {
        assert Filter(orders, p) == k;
      }
    }
  }

  /** `getSellerOrderById`: a missing order and an order without the
      seller's items both fail with a generic error, since the handler
      rewraps the not-found exception. */
  function GetSellerOrderById(orders: seq<Order>, sellerId: Id, orderId: Id): (r: Lookup<SellerOrder>)
    ensures r.Failed? ==> r.error == InternalError
    ensures (forall i :: 0 <= i < |orders| ==> orders[i].id != orderId) ==> r.Failed?
    ensures r.Found? ==>
              && r.value.orderId == orderId
              && r.value in GetSellerOrders(orders, sellerId)
              && |r.value.items| > 0
              && r.value.sellerTotalPrice == Sum(r.value.items)
    ensures (exists i :: 0 <= i < |orders| && orders[i].id == orderId)
            ==> (r.Found? <==> HasSellerItems(orders[IndexOf(orders, orderId).value], sellerId))
  {
    match IndexOf(orders, orderId)
    case None => Failed(InternalError)
    case Some(i) =>
      assert orders[i] in orders;
      match SellerView(orders[i], sellerId)
      case None => Failed(InternalError)
      case Some(v) => Found(v)
  }

  /** With unique order ids, every entry of the seller list is what the
      single-order query returns for its id. */
  lemma SellerListAgreesWithById(orders: seq<Order>, sellerId: Id, x: SellerOrder)
    requires forall i, j :: 0 <= i < j < |orders| ==> orders[i].id != orders[j].id
    requires x in GetSellerOrders(orders, sellerId)
    ensures GetSellerOrderById(orders, sellerId, x.orderId) == Found(x)
  {
    var o :| o in orders && SellerView(o, sellerId) == Some(x);
    var i :| 0 <= i < |orders| && orders[i] == o;
    assert orders[i].id == x.orderId;
    var k := IndexOf(orders, x.orderId);
    assert k.Some? && orders[k.value].id == orders[i].id;
    assert k.value == i;
    assert SellerView(orders[k.value], sellerId) == Some(x);
  }

  /** `findById`: the position of the order with this id. */
  function IndexOf(orders: seq<Order>, id: Id): (r: Option<nat>)
    ensures r.Some? ==> r.value < |orders| && orders[r.value].id == id
    ensures r.Some? ==> forall j :: 0 <= j < r.value ==> orders[j].id != id
    ensures r.None? <==> forall j :: 0 <= j < |orders| ==> orders[j].id != id
  {
    if orders == [] then None
    else if orders[0].id == id then Some(0)
    else
      match IndexOf(orders[1..], id)
      case None => None
      case Some(j) => Some(j + 1)
  }

  // ---------------------------------------------------------------------
  // Status filters

  /** `findAllExceptCancelled`. */
  function FindAllExceptCancelled(orders: seq<Order>, userId: Id): (r: seq<Order>)
    ensures forall o :: o in r <==> o in orders && o.userId == userId && o.orderStatus != Cancelled
  {
    Filter(orders, (o: Order) => o.userId == userId && o.orderStatus != Cancelled)
  }

  /** `findUserOrdersByStatus`. */
  function FindUserOrdersByStatus(orders: seq<Order>, userId: Id, status: string): (r: seq<Order>)
    ensures forall o :: o in r <==> o in orders && o.userId == userId && o.orderStatus == status
  {
    Filter(orders, (o: Order) => o.userId == userId && o.orderStatus == status)
  }

  /** The user's orders, in store order. */
  function UserOrders(orders: seq<Order>, userId: Id): seq<Order> {
    Filter(orders, (o: Order) => o.userId == userId)
  }

  /** Every order of the user is either cancelled or among the active ones,
      and not both: the two queries split the user's orders. */
  lemma {:induction false} CancelledSplit(orders: seq<Order>, userId: Id)
    ensures |FindAllExceptCancelled(orders, userId)| + |FindUserOrdersByStatus(orders, userId, Cancelled)|
            == |UserOrders(orders, userId)|
  {
    if orders != [] {
      CancelledSplit(orders[1..], userId);
    }
  }

  /** The pattern `^(completed|delivered)$` with the `i` flag, as the
      document store's regular-expression engine applies it: the whole
      status, ignoring ASCII case; `$` also matches before one final
      line feed. */
  predicate IsCompletedStatus(status: string) {
    var body := Unterminated(status);
    EqualsIgnoringCase(body, "completed") || EqualsIgnoringCase(body, "delivered")
  }

  /** The status without one final line feed, if it has one. */
  function Unterminated(status: string): string {
    if |status| > 0 && status[|status| - 1] == '\n' then status[..|status| - 1] else status
  }

  /** `getUserCompletedOrders`. */
  function GetUserCompletedOrders(orders: seq<Order>, userId: Id): (r: seq<Order>)
    ensures forall o :: o in r <==> o in orders && o.userId == userId && IsCompletedStatus(o.orderStatus)
  {
    Filter(orders, (o: Order) => o.userId == userId && IsCompletedStatus(o.orderStatus))
  }

  /** A lower-case word without a final line feed matches a status, up to
      case and one final line feed, exactly when the lower-cased status is
      the word or the word followed by a line feed. */
  lemma MatchesWord(status: string, w: string)
    requires IsLower(w) && (|w| == 0 || w[|w| - 1] != '\n')
    ensures EqualsIgnoringCase(Unterminated(status), w) <==>
              ToLower(status) == w || ToLower(status) == w + "\n"
  {
    ToLowerIdempotent(w);
    var n := |status|;
    var l := ToLower(status);
    if n > 0 && status[n - 1] == '\n' {
      ToLowerLast(status);
      assert l != w by {
        assert l[n - 1] == '\n';
      }
    } else {
      assert l != w + "\n" by {
        assert n > 0 ==> l[n - 1] != '\n';
      }
    }
  }

  /** The completion pattern, stated on the lower-cased status: exactly the
      two words, each optionally followed by one line feed. */
  lemma CompletedStatusWords(status: string)
    ensures IsCompletedStatus(status) <==>
              var l := ToLower(status);
              l == "completed" || l == "delivered" || l == "completed\n" || l == "delivered\n"
  {
    var c, d := "completed", "delivered";
    assert IsLower(c) && IsLower(d);
    assert c + "\n" == "completed\n" && d + "\n" == "delivered\n";
    MatchesWord(status, c);
    MatchesWord(status, d);
  }

  // ---------------------------------------------------------------------
  // Status update

  /** `updateStatus`: sets the status of the order with this id. A missing
      order surfaces as an internal error, since the handler rewraps the
      not-found exception. */
  function UpdateStatus(orders: seq<Order>, id: Id, status: string): (s: OrderStep)
    ensures s.result == Ok <==> exists i :: 0 <= i < |orders| && orders[i].id == id
    ensures s.result != Ok ==> s == OrderStep(InternalError, orders)
    ensures |s.orders| == |orders|
    ensures s.result == Ok ==>
              var i := IndexOf(orders, id).value;
              && s.orders[i] == orders[i].(orderStatus := status)
              && forall j :: 0 <= j < |orders| && j != i ==> s.orders[j] == orders[j]
  {
    match IndexOf(orders, id)
    case None => OrderStep(InternalError, orders)
    case Some(i) => OrderStep(Ok, orders[i := orders[i].(orderStatus := status)])
  }

  /** Setting a status and then setting back the previous one restores the
      orders; setting the same status twice is the same as once. */
  lemma UpdateStatusUndo(orders: seq<Order>, id: Id, status: string)
    requires exists i :: 0 <= i < |orders| && orders[i].id == id
    ensures var i := IndexOf(orders, id).value;
            var s := UpdateStatus(orders, id, status);
            && UpdateStatus(s.orders, id, orders[i].orderStatus) == OrderStep(Ok, orders)
            && UpdateStatus(s.orders, id, status) == s
  {
    var i := IndexOf(orders, id).value;
    var s := UpdateStatus(orders, id, status);
    assert IndexOf(s.orders, id) == Some(i) by {
      assert forall j :: 0 <= j < i ==> s.orders[j] == orders[j];
    }
  }

  /** After an update the order is found by the status query under its new
      status (for its owner). */
  lemma UpdatedOrderFoundByStatus(orders: seq<Order>, id: Id, status: string)
    requires exists i :: 0 <= i < |orders| && orders[i].id == id
    ensures var i := IndexOf(orders, id).value;
            var s := UpdateStatus(orders, id, status);
            s.orders[i] in FindUserOrdersByStatus(s.orders, orders[i].userId, status)
  {
  }
}

=== FILE: user_scenarios.dfy ===
/** Properties that relate several calls of the user service: tokens are
    single-use, reset requests and confirmations fit together, a password
    change can be undone by its inverse, and failed logins accumulate into
    a lockout that a successful login lifts. */
module UserScenarios {
  import opened Common
  import opened Accounts
  import opened UserService

  /** At most one account holds `token` as its verification token. */
  predicate UniqueVerificationToken(store: Store, token: string) {
    forall i, j ::
      (i in store && j in store
       && store[i].verificationToken == Some(token) && store[j].verificationToken == Some(token)) ==> i == j
  }

  /** No account holds `token` as its reset token. */
  predicate ResetTokenUnused(store: Store, token: string) {
    forall k :: k in store ==> store[k].resetPasswordToken != Some(token)
  }

  /** Confirming a verification token verifies its holder; a second
      confirmation with the same token finds nothing. */
  lemma VerifyTokenTwice(store: Store, token: string, k: Id)
    requires |token| > 0
    requires k in store && store[k].verificationToken == Some(token)
    requires UniqueVerificationToken(store, token)
    ensures VerifyEmail(store, None, Some(token)).result == Ok
    ensures VerifyEmail(store, None, Some(token)).store[k].isVerified
    ensures VerifyEmail(VerifyEmail(store, None, Some(token)).store, None, Some(token))
            == Step(NotFound, VerifyEmail(store, None, Some(token)).store)
  {
    var s1 := VerifyEmail(store, None, Some(token));
    var h := ByVerificationToken(store, token).value;
    assert h == k;
    forall j | j in s1.store
      ensures s1.store[j].verificationToken != Some(token)
    {
      if j != k {
        assert s1.store[j] == store[j];
      }
    }
  }

  /** A fresh registration followed by confirming the mailed token leaves a
      verified account under the lower-cased email. */
  lemma RegisterThenVerify(store: Store, dto: NewUser, newId: Id, token: Token, defaults: Defaults)
    requires newId !in store
    requires !EmailTaken(store, dto.email)
    requires forall k :: k in store ==> store[k].verificationToken != Some(token)
    ensures CreateNewUser(store, dto, newId, token, true, defaults).result == Ok
    ensures var s1 := CreateNewUser(store, dto, newId, token, true, defaults);
            var s2 := VerifyEmail(s1.store, None, Some(token));
            && s2.result == Ok
            && s2.store[newId].isVerified
            && s2.store[newId].verificationToken.None?
            && s2.store[newId].email == ToLower(dto.email)
            && (forall k :: k in store ==> s2.store[k] == store[k])
  {
    var s1 := CreateNewUser(store, dto, newId, token, true, defaults);
    assert s1.store[newId].verificationToken == Some(token);
    assert ByVerificationToken(s1.store, token) == Some(newId);
  }

  /** A reset request followed, within the hour, by a confirmation with the
      mailed token replaces the password, clears the token and lifts any
      lockout; the token cannot be used a second time. */
  lemma ResetRoundTrip(store: Store, email: string, token: Token, now: Millis, later: Millis,
                       newPassword: string, again: string)
    requires EmailTaken(store, ToLower(email))
    requires ResetTokenUnused(store, token)
    requires now <= later < now + ResetWindow
    ensures var h := ByEmail(store, ToLower(email)).value;
            var s1 := InitiatePasswordReset(store, email, token, now, true);
            var s2 := ResetPassword(s1.store, token, newPassword, later);
            && s1.result == Ok
            && s2.result == Ok
            && PasswordMatches(newPassword, s2.store[h].passwordHash)
            && s2.store[h].resetPasswordToken.None?
            && s2.store[h].loginAttempts == Some(0) && s2.store[h].lockUntil.None?
            && (forall k :: k in store && k != h ==> s2.store[k] == store[k])
            && ResetPassword(s2.store, token, again, later) == Step(Unauthorized, s2.store)
  {
    var h := ByEmail(store, ToLower(email)).value;
    var s1 := InitiatePasswordReset(store, email, token, now, true);
    assert LiveResetToken(s1.store[h], token, later);
    forall k | k in s1.store && k != h
      ensures !LiveResetToken(s1.store[k], token, later)
    {
      assert s1.store[k] == store[k];
    }
    assert ByLiveResetToken(s1.store, token, later) == Some(h);
    var s2 := ResetPassword(s1.store, token, newPassword, later);
    forall k | k in s2.store
      ensures !LiveResetToken(s2.store[k], token, later)
    {
      if k != h {
        assert s2.store[k] == s1.store[k];
      }
    }
  }

  /** An administrator reset with a too-short password is refused but
      leaves the token live, so a retry with a long enough password
      succeeds; the lockout fields survive the reset. */
  lemma AdminResetRetry(store: Store, token: string, now: Millis, k: Id, short: string, long: string)
    requires k in store && store[k].role == Admin && LiveResetToken(store[k], token, now)
    requires Utf16Length(short) < MinAdminPasswordLength <= Utf16Length(long)
    ensures AdminResetPassword(store, token, short, now) == Step(BadRequest, store)
    ensures var s := AdminResetPassword(store, token, long, now);
            var h := AdminByLiveResetToken(store, token, now).value;
            && s.result == Ok
            && PasswordMatches(long, s.store[h].passwordHash)
            && s.store[h].loginAttempts == store[h].loginAttempts
            && s.store[h].lockUntil == store[h].lockUntil
  {
    assert LiveResetToken(store[k], token, now) && store[k].role == Admin;
  }

  /** A reset token whose expiry has passed is refused exactly like a token
      that was never issued, on both the self-service and the
      administrator path. */
  lemma ExpiredTokenLikeUnknown(store: Store, token: string, unknown: string, now: Millis, pw: string)
    requires forall k :: k in store && store[k].resetPasswordToken == Some(token) ==>
               store[k].resetPasswordExpires.Some? && store[k].resetPasswordExpires.value <= now
    requires ResetTokenUnused(store, unknown)
    ensures ResetPassword(store, token, pw, now) == ResetPassword(store, unknown, pw, now)
    ensures ResetPassword(store, token, pw, now) == Step(Unauthorized, store)
    ensures AdminResetPassword(store, token, pw, now) == AdminResetPassword(store, unknown, pw, now)
    ensures AdminResetPassword(store, token, pw, now) == Step(NotFound, store)
  {
  }

  /** After a password change the old password is refused; changing it
      back succeeds, makes the old password match again and restores every
      other field of every account. */
  lemma PasswordChangeUndo(store: Store, id: Id, oldPassword: string, newPassword: string, other: string)
    requires UpdateUserPassword(store, id, oldPassword, newPassword).result == Ok
    ensures var s1 := UpdateUserPassword(store, id, oldPassword, newPassword);
            var s2 := UpdateUserPassword(s1.store, id, newPassword, oldPassword);
            && UpdateUserPassword(s1.store, id, oldPassword, other) == Step(Unauthorized, s1.store)
            && s2.result == Ok
            && OnlyChanged(store, s2.store, id)
            && PasswordMatches(oldPassword, s2.store[id].passwordHash)
            && s2.store[id] == store[id].(passwordHash := s2.store[id].passwordHash)
  {
    var s1 := UpdateUserPassword(store, id, oldPassword, newPassword);
    var s2 := UpdateUserPassword(s1.store, id, newPassword, oldPassword);
    assert s2.store[id] == s1.store[id].(passwordHash := s2.store[id].passwordHash);
  }

  /** The administrator reset counts a password's length in UTF-16 code
      units: four characters outside the Basic Multilingual Plane make
      eight units and are accepted. */
  lemma AstralPasswordAccepted(store: Store, token: string, now: Millis, k: Id)
    requires k in store && store[k].role == Admin && LiveResetToken(store[k], token, now)
    ensures AdminResetPassword(store, token, "\U{1F600}\U{1F600}\U{1F600}\U{1F600}", now).result == Ok
  {
    var pw := "\U{1F600}\U{1F600}\U{1F600}\U{1F600}";
    assert Utf16Length(pw) == 2 + Utf16Length(pw[1..]);
    assert Utf16Length(pw[1..]) == 2 + Utf16Length(pw[2..]);
    assert Utf16Length(pw[2..]) == 2 + Utf16Length(pw[3..]);
    assert Utf16Length(pw[3..]) == 2 + Utf16Length(pw[4..]);
  }

  /** A password change leaves an outstanding reset token in place, so
      the token still replaces the password afterwards. */
  lemma ResetTokenSurvivesPasswordChange(store: Store, id: Id, oldPassword: string, newPassword: string,
                                         token: string, now: Millis, pw: string)
    requires UpdateUserPassword(store, id, oldPassword, newPassword).result == Ok
    requires LiveResetToken(store[id], token, now)
    ensures var s1 := UpdateUserPassword(store, id, oldPassword, newPassword);
            && LiveResetToken(s1.store[id], token, now)
            && ResetPassword(s1.store, token, pw, now).result == Ok
  {
    var s1 := UpdateUserPassword(store, id, oldPassword, newPassword);
    assert LiveResetToken(s1.store[id], token, now);
  }

  /** The store after a run of failed logins at the given times. */
  function FailedLogins(store: Store, id: Id, times: seq<Millis>): (r: Store)
    ensures r.Keys == store.Keys
    decreases |times|
  {
    if times == [] then store
    else FailedLogins(UpdateLoginStats(store, id, false, times[0]), id, times[1..])
  }

  /** Failed logins add up: `n` failures raise the count by `n`, and once the
      count reaches the threshold the lock runs thirty minutes from the last
      failure. Nothing but the failing account changes. */
  lemma {:induction false} FailuresAccumulate(store: Store, id: Id, times: seq<Millis>)
    requires id in store
    ensures var r := FailedLogins(store, id, times);
            && OnlyChanged(store, r, id)
            && Attempts(r[id]) == Attempts(store[id]) + |times|
            && r[id].passwordHash == store[id].passwordHash
            && (|times| > 0 && Attempts(r[id]) >= MaxLoginAttempts ==>
                  r[id].lockUntil == Some(times[|times| - 1] + LockWindow))
            && (|times| == 0 || Attempts(r[id]) < MaxLoginAttempts ==> r[id].lockUntil == store[id].lockUntil)
    decreases |times|
  {
    if times != [] {
      var s1 := UpdateLoginStats(store, id, false, times[0]);
      FailuresAccumulate(s1, id, times[1..]);
      var r := FailedLogins(s1, id, times[1..]);
      if |times| > 1 {
        assert times[1..][|times[1..]| - 1] == times[|times| - 1];
      }
    }
  }

  /** Five failures from a clean account lock it; a successful login then
      clears the lock and the count. */
  lemma LockoutAndRecovery(store: Store, id: Id, times: seq<Millis>, now: Millis)
    requires id in store && Attempts(store[id]) == 0
    requires |times| == MaxLoginAttempts
    ensures var r := FailedLogins(store, id, times);
            && Attempts(r[id]) == MaxLoginAttempts
            && r[id].lockUntil == Some(times[4] + LockWindow)
            && UpdateLoginStats(r, id, true, now)[id].loginAttempts == Some(0)
            && UpdateLoginStats(r, id, true, now)[id].lockUntil.None?
            && UpdateLoginStats(r, id, true, now)[id].lastLoginAt == Some(now)
  {
    FailuresAccumulate(store, id, times);
  }

  /** Registering an upper-case variant of a stored lower-case email is not
      caught by the exact-match duplicate check, and the new account ends up
      with the same stored email as the existing one. */
  lemma CaseVariantDuplicates(store: Store, dto: NewUser, newId: Id, token: Token, defaults: Defaults, k: Id)
    requires newId !in store
    requires k in store && store[k].email == ToLower(dto.email)
    requires !EmailTaken(store, dto.email)
    ensures var s := CreateNewUser(store, dto, newId, token, true, defaults);
            && s.result == Ok
            && k != newId
            && s.store[k].email == s.store[newId].email
  {
  }

  /** The administrator update can mark an account verified while its
      verification token is still outstanding, so unlike every other
      operation it does not keep `VerifiedClean`. */
  lemma AdminUpdateCanVerifyPending(store: Store, adminId: Id, userId: Id, patch: Patch)
    requires IsAdmin(store, adminId) && userId in store
    requires store[userId].verificationToken.Some?
    requires patch.isVerified == Some(true)
    ensures UpdateUserByAdmin(store, adminId, userId, patch).result == Ok
    ensures !Consistent(UpdateUserByAdmin(store, adminId, userId, patch).store)
  {
    var s := UpdateUserByAdmin(store, adminId, userId, patch);
    assert !VerifiedClean(s.store[userId]);
  }

  /** With the mail gateway up, a self-service reset request reports the
      same outcome whether or not the email belongs to an account. */
  lemma ResetRequestHidesExistence(store: Store, known: string, unknown: string, token: Token, now: Millis)
    requires EmailTaken(store, ToLower(known))
    requires !EmailTaken(store, ToLower(unknown))
    ensures InitiatePasswordReset(store, known, token, now, true).result
            == InitiatePasswordReset(store, unknown, token, now, true).result
    ensures InitiatePasswordReset(store, unknown, token, now, true).store == store
  {
  }
}

=== FILE: user_service.dfy ===
/** The account-credential operations of the user service. Each call takes
    the store, its inputs and the environment it would otherwise fetch
    (the clock `now`, a fresh random token, whether the mail gateway
    accepted the message) and returns its outcome with the new store. */
module UserService {
  import opened Common
  import opened Accounts

  /** Lifetime of a password-reset token: one hour. */
  const ResetWindow: int := 3600000

  /** Length of a lockout: thirty minutes. */
  const LockWindow: int := 1800000

  /** Consecutive failed logins that trigger a lockout. */
  const MaxLoginAttempts: nat := 5

  /** Shortest password the administrator reset accepts. */
  const MinAdminPasswordLength: nat := 8

  /** A JavaScript string argument that is truthy: present and non-empty. */
  predicate Truthy(s: Option<string>) {
    s.Some? && |s.value| > 0
  }

  /** A new document: no reset pending, no failed login recorded, no lock
      and no login yet. */
  predicate Fresh(a: Account) {
    && a.resetPasswordToken.None? && a.resetPasswordExpires.None?
    && a.loginAttempts.None? && a.lockUntil.None? && a.lastLoginAt.None?
  }

  /** The document a self-registration creates. */
  function PendingAccount(dto: NewUser, token: Token, defaults: Defaults): Account {
    Account(
      email := ToLower(dto.email),
      name := dto.name,
      passwordHash := Hash(dto.password),
      role := if dto.role.Some? then dto.role.value else defaults.role,
      isVerified := false,
      isActive := false,
      verificationToken := Some(token),
      resetPasswordToken := None,
      resetPasswordExpires := None,
      loginAttempts := None,
      lockUntil := None,
      lastLoginAt := None)
  }

  /** Registration (`createNewUser`). The duplicate check uses the email as
      given while the new document stores it lower-cased. Re-registering
      an unverified account re-issues its token but always ends in
      `InternalError`: the conflict raised after the resend is caught and
      rethrown as a bad request, which the outer handler rethrows again as
      an internal error. */
  function CreateNewUser(store: Store, dto: NewUser, newId: Id, token: Token,
                         sendOk: bool, defaults: Defaults): (s: Step)
    requires newId !in store
    // a verified holder of the email: conflict, nothing changes
    ensures ByEmail(store, dto.email).Some? && store[ByEmail(store, dto.email).value].isVerified
            ==> s == Step(Conflict, store)
    // an unverified holder: always an internal error; the token is
    // replaced exactly when the mail went out
    ensures ByEmail(store, dto.email).Some? && !store[ByEmail(store, dto.email).value].isVerified
            ==> var h := ByEmail(store, dto.email).value;
                && s.result == InternalError
                && OnlyChanged(store, s.store, h)
                && s.store[h] == store[h].(verificationToken :=
                     if sendOk then Some(token) else store[h].verificationToken)
    // a taken email never yields a new account
    ensures EmailTaken(store, dto.email) ==> s.result != Ok && s.store.Keys == store.Keys
    // a free email: a new account exactly when the mail went out
    ensures !EmailTaken(store, dto.email) ==> (s.result == Ok <==> sendOk)
    ensures !EmailTaken(store, dto.email) && !sendOk ==> s == Step(InternalError, store)
    ensures s.result == Ok ==>
              && s.store.Keys == store.Keys + {newId}
              && (forall k :: k in store ==> s.store[k] == store[k])
              && s.store[newId].email == ToLower(dto.email)
              && IsLower(s.store[newId].email)
              && PasswordMatches(dto.password, s.store[newId].passwordHash)
              && !s.store[newId].isVerified && !s.store[newId].isActive
              && s.store[newId].verificationToken == Some(token)
              && s.store[newId].name == dto.name
              && s.store[newId].role == (if dto.role.Some? then dto.role.value else defaults.role)
              && Fresh(s.store[newId])
    ensures Consistent(store) ==> Consistent(s.store)
  {
    match ByEmail(store, dto.email)
    case Some(h) =>
      var a := store[h];
      if a.isVerified then Step(Conflict, store)
      else if sendOk then Step(InternalError, store[h := a.(verificationToken := Some(token))])
      else Step(InternalError, store)
    case None =>
      if !sendOk then Step(InternalError, store)
      else
        ToLowerIdempotent(dto.email);
        Step(Ok, store[newId := PendingAccount(dto, token, defaults)])
  }

  /** Email verification (`verifyEmail`). A truthy token takes precedence
      over the email; the email branch only reports the verification state. */
  function VerifyEmail(store: Store, email: Option<string>, token: Option<string>): (s: Step)
    // token branch: succeeds exactly when some account holds the token
    ensures Truthy(token) ==>
              (s.result == Ok <==> exists k :: k in store && store[k].verificationToken == token)
    ensures Truthy(token) && s.result != Ok ==> s == Step(NotFound, store)
    ensures Truthy(token) && s.result == Ok ==>
              var h := ByVerificationToken(store, token.value).value;
              && store[h].verificationToken == token
              && OnlyChanged(store, s.store, h)
              && s.store[h] == store[h].(isVerified := true, verificationToken := None)
    // email branch: read-only
    ensures !Truthy(token) && Truthy(email) ==> s.store == store
    ensures !Truthy(token) && Truthy(email) ==>
              (s.result == NotFound <==> !EmailTaken(store, email.value))
    ensures !Truthy(token) && Truthy(email) ==>
              (s.result == Ok <==> EmailTaken(store, email.value)
                                   && store[ByEmail(store, email.value).value].isVerified)
    ensures !Truthy(token) && Truthy(email) && s.result != Ok ==> s.result in {NotFound, Unauthorized}
    // neither input
    ensures !Truthy(token) && !Truthy(email) ==> s == Step(BadRequest, store)
    ensures Consistent(store) ==> Consistent(s.store)
  {
    if Truthy(token) then
      match ByVerificationToken(store, token.value)
      case None => Step(NotFound, store)
      case Some(h) => Step(Ok, store[h := store[h].(isVerified := true, verificationToken := None)])
    else if Truthy(email) then
      match ByEmail(store, email.value)
      case None => Step(NotFound, store)
      case Some(h) => if !store[h].isVerified then Step(Unauthorized, store) else Step(Ok, store)
    else
      Step(BadRequest, store)
  }

  /** Password change (`updateUserPassword`). The checks run in the order
      unknown id, wrong old password, unchanged password. */
  function UpdateUserPassword(store: Store, id: Id, oldPassword: string, newPassword: string): (s: Step)
    ensures id !in store ==> s == Step(NotFound, store)
    ensures id in store && !PasswordMatches(oldPassword, store[id].passwordHash)
            ==> s == Step(Unauthorized, store)
    ensures id in store && PasswordMatches(oldPassword, store[id].passwordHash) && oldPassword == newPassword
            ==> s == Step(BadRequest, store)
    ensures s.result == Ok <==>
              id in store && PasswordMatches(oldPassword, store[id].passwordHash) && oldPassword != newPassword
    ensures s.result != Ok ==> s.store == store
    ensures s.result == Ok ==>
              && OnlyChanged(store, s.store, id)
              && PasswordMatches(newPassword, s.store[id].passwordHash)
              && !PasswordMatches(oldPassword, s.store[id].passwordHash)
              && s.store[id] == store[id].(passwordHash := s.store[id].passwordHash)
    ensures Consistent(store) ==> Consistent(s.store)
  {
    if id !in store then Step(NotFound, store)
    else if !PasswordMatches(oldPassword, store[id].passwordHash) then Step(Unauthorized, store)
    else if oldPassword == newPassword then Step(BadRequest, store)
    else Step(Ok, store[id := store[id].(passwordHash := Hash(newPassword))])
  }

  /** The shared tail of both reset requests: when a matching account was
      found, persist token and expiry together, but only once the mail
      went out; a miss reports success and changes nothing. */
  function IssueReset(store: Store, hit: Option<Id>, token: Token, now: Millis, sendOk: bool): (s: Step)
    requires hit.Some? ==> hit.value in store
    ensures hit.None? ==> s == Step(Ok, store)
    ensures hit.Some? && !sendOk ==> s == Step(InternalError, store)
    ensures hit.Some? && sendOk ==>
              && s.result == Ok
              && OnlyChanged(store, s.store, hit.value)
              && s.store[hit.value] == store[hit.value].(resetPasswordToken := Some(token),
                                                         resetPasswordExpires := Some(now + ResetWindow))
              && (forall t :: now <= t < now + ResetWindow ==> LiveResetToken(s.store[hit.value], token, t))
              && !LiveResetToken(s.store[hit.value], token, now + ResetWindow)
    ensures Consistent(store) ==> Consistent(s.store)
  {
    match hit
    case None => Step(Ok, store)
    case Some(h) =>
      if !sendOk then Step(InternalError, store)
      else Step(Ok, store[h := store[h].(resetPasswordToken := Some(token),
                                         resetPasswordExpires := Some(now + ResetWindow))])
  }

  /** Self-service reset request (`initiatePasswordReset`): lookup by the
      lower-cased email. */
  function InitiatePasswordReset(store: Store, email: string, token: Token, now: Millis, sendOk: bool): (s: Step)
    ensures !EmailTaken(store, ToLower(email)) ==> s == Step(Ok, store)
    ensures s.result == InternalError <==> EmailTaken(store, ToLower(email)) && !sendOk
    ensures s.result != Ok ==> s.store == store
    ensures EmailTaken(store, ToLower(email)) && sendOk ==>
              var h := ByEmail(store, ToLower(email)).value;
              && s.result == Ok
              && store[h].email == ToLower(email)
              && OnlyChanged(store, s.store, h)
              && s.store[h] == store[h].(resetPasswordToken := Some(token),
                                         resetPasswordExpires := Some(now + ResetWindow))
              && LiveResetToken(s.store[h], token, now)
    ensures Consistent(store) ==> Consistent(s.store)
  {
    IssueReset(store, ByEmail(store, ToLower(email)), token, now, sendOk)
  }

  /** Administrator reset request (`initiateAdminPasswordReset`): as the
      self-service request, but only an administrator account matches. */
  function InitiateAdminPasswordReset(store: Store, email: string, token: Token, now: Millis, sendOk: bool): (s: Step)
    ensures AdminByEmail(store, ToLower(email)).None? ==> s == Step(Ok, store)
    ensures (forall k :: k in store && store[k].email == ToLower(email) ==> store[k].role != Admin)
            ==> s == Step(Ok, store)
    ensures s.result == InternalError <==> AdminByEmail(store, ToLower(email)).Some? && !sendOk
    ensures s.result != Ok ==> s.store == store
    ensures AdminByEmail(store, ToLower(email)).Some? && sendOk ==>
              var h := AdminByEmail(store, ToLower(email)).value;
              && s.result == Ok
              && store[h].email == ToLower(email) && store[h].role == Admin
              && OnlyChanged(store, s.store, h)
              && s.store[h] == store[h].(resetPasswordToken := Some(token),
                                         resetPasswordExpires := Some(now + ResetWindow))
              && LiveResetToken(s.store[h], token, now)
    ensures Consistent(store) ==> Consistent(s.store)
  {
    IssueReset(store, AdminByEmail(store, ToLower(email)), token, now, sendOk)
  }

  /** Self-service reset confirmation (`resetPassword`). A successful reset
      also lifts any lockout. */
  function ResetPassword(store: Store, token: string, newPassword: string, now: Millis): (s: Step)
    ensures s.result == Ok <==> exists k :: k in store && LiveResetToken(store[k], token, now)
    ensures s.result != Ok ==> s == Step(Unauthorized, store)
    ensures s.result == Ok ==>
              var h := ByLiveResetToken(store, token, now).value;
              && LiveResetToken(store[h], token, now)
              && OnlyChanged(store, s.store, h)
              && PasswordMatches(newPassword, s.store[h].passwordHash)
              && s.store[h].resetPasswordToken.None? && s.store[h].resetPasswordExpires.None?
              && s.store[h].loginAttempts == Some(0) && s.store[h].lockUntil.None?
              // every field but the credentials and the lockout is kept
              && s.store[h] == store[h].(passwordHash := s.store[h].passwordHash,
                                         resetPasswordToken := None, resetPasswordExpires := None,
                                         loginAttempts := Some(0), lockUntil := None)
    ensures Consistent(store) ==> Consistent(s.store)
  {
    match ByLiveResetToken(store, token, now)
    case None => Step(Unauthorized, store)
    case Some(h) =>
      Step(Ok, store[h := store[h].(passwordHash := Hash(newPassword),
                                    resetPasswordToken := None,
                                    resetPasswordExpires := None,
                                    loginAttempts := Some(0),
                                    lockUntil := None)])
  }

  /** Administrator reset confirmation (`adminResetPassword`). The length
      check runs after the lookup, so a short password leaves the token
      live; the lockout fields are left as they are. */
  function AdminResetPassword(store: Store, token: string, newPassword: string, now: Millis): (s: Step)
    ensures s.result == NotFound <==>
              !exists k :: k in store && LiveResetToken(store[k], token, now) && store[k].role == Admin
    ensures s.result == BadRequest <==>
              (exists k :: k in store && LiveResetToken(store[k], token, now) && store[k].role == Admin)
              && Utf16Length(newPassword) < MinAdminPasswordLength
    ensures s.result in {Ok, NotFound, BadRequest}
    ensures s.result != Ok ==> s.store == store
    ensures s.result == Ok ==>
              var h := AdminByLiveResetToken(store, token, now).value;
              && store[h].role == Admin && LiveResetToken(store[h], token, now)
              && OnlyChanged(store, s.store, h)
              && PasswordMatches(newPassword, s.store[h].passwordHash)
              && s.store[h].resetPasswordToken.None? && s.store[h].resetPasswordExpires.None?
              && s.store[h].loginAttempts == store[h].loginAttempts
              && s.store[h].lockUntil == store[h].lockUntil
              // every field but the password and the reset pair is kept
              && s.store[h] == store[h].(passwordHash := s.store[h].passwordHash,
                                         resetPasswordToken := None, resetPasswordExpires := None)
    ensures Consistent(store) ==> Consistent(s.store)
  {
    match AdminByLiveResetToken(store, token, now)
    case None => Step(NotFound, store)
    case Some(h) =>
      if Utf16Length(newPassword) < MinAdminPasswordLength then Step(BadRequest, store)
      else
        Step(Ok, store[h := store[h].(passwordHash := Hash(newPassword),
                                      resetPasswordToken := None,
                                      resetPasswordExpires := None)])
  }

  /** Account creation by an administrator (`createUserByAdmin`). The new
      account is verified; its email is stored as given. */
  function CreateUserByAdmin(store: Store, adminId: Id, dto: NewUser, newId: Id, defaults: Defaults): (s: Step)
    requires newId !in store
    ensures !IsAdmin(store, adminId) ==> s == Step(Unauthorized, store)
    ensures IsAdmin(store, adminId) && EmailTaken(store, dto.email) ==> s == Step(Conflict, store)
    ensures s.result == Ok <==> IsAdmin(store, adminId) && !EmailTaken(store, dto.email)
    ensures s.result != Ok ==> s.store == store
    ensures s.result == Ok ==>
              && s.store.Keys == store.Keys + {newId}
              && (forall k :: k in store ==> s.store[k] == store[k])
              && s.store[newId].email == dto.email
              && PasswordMatches(dto.password, s.store[newId].passwordHash)
              && s.store[newId].isVerified
              && s.store[newId].verificationToken.None?
              && s.store[newId].name == dto.name
              && s.store[newId].role == (if dto.role.Some? then dto.role.value else defaults.role)
              && s.store[newId].isActive == defaults.isActive
              && Fresh(s.store[newId])
    ensures Consistent(store) ==> Consistent(s.store)
  {
    if !IsAdmin(store, adminId) then Step(Unauthorized, store)
    else if ByEmail(store, dto.email).Some? then Step(Conflict, store)
    else
      var a := Account(
        email := dto.email,
        name := dto.name,
        passwordHash := Hash(dto.password),
        role := if dto.role.Some? then dto.role.value else defaults.role,
        isVerified := true,
        isActive := defaults.isActive,
        verificationToken := None,
        resetPasswordToken := None,
        resetPasswordExpires := None,
        loginAttempts := None,
        lockUntil := None,
        lastLoginAt := None);
      Step(Ok, store[newId := a])
  }

  /** Partial update of one account (`updateUserById`). */
  function UpdateUserById(store: Store, id: Id, patch: Patch): (s: Step)
    ensures s.result == Ok <==> id in store
    ensures id !in store ==> s == Step(NotFound, store)
    ensures id in store ==>
              && OnlyChanged(store, s.store, id)
              && s.store[id].passwordHash == store[id].passwordHash
              && s.store[id].resetPasswordToken == store[id].resetPasswordToken
              && (patch.email.Some? ==> s.store[id].email == patch.email.value)
              && (patch.role.Some? ==> s.store[id].role == patch.role.value)
              && (patch == Patch(None, None, None, None, None) ==> s.store == store)
              && s.store[id] == Apply(store[id], patch)
    ensures Consistent(store) && patch.isVerified != Some(true) ==> Consistent(s.store)
  {
    if id !in store then Step(NotFound, store)
    else Step(Ok, store[id := Apply(store[id], patch)])
  }

  /** Partial update of one account by an administrator (`updateUserByAdmin`). */
  function UpdateUserByAdmin(store: Store, adminId: Id, userId: Id, patch: Patch): (s: Step)
    ensures !IsAdmin(store, adminId) ==> s == Step(Unauthorized, store)
    ensures IsAdmin(store, adminId) && userId !in store ==> s == Step(NotFound, store)
    ensures s.result == Ok <==> IsAdmin(store, adminId) && userId in store
    ensures s.result != Ok ==> s.store == store
    ensures s.result == Ok ==>
              && OnlyChanged(store, s.store, userId)
              && s.store[userId].passwordHash == store[userId].passwordHash
              && (patch.role.Some? ==> s.store[userId].role == patch.role.value)
              && (patch.role.None? ==> s.store[userId].role == store[userId].role)
              && s.store[userId] == Apply(store[userId], patch)
    ensures Consistent(store) && patch.isVerified != Some(true) ==> Consistent(s.store)
  {
    if !IsAdmin(store, adminId) then Step(Unauthorized, store)
    else UpdateUserById(store, userId, patch)
  }

  /** Account deletion (`deleteUser`). */
  function DeleteUser(store: Store, id: Id): (s: Step)
    ensures s.result == Ok <==> id in store
    ensures id !in store ==> s == Step(NotFound, store)
    ensures id in store ==>
              && s.store.Keys == store.Keys - {id}
              && forall k :: k in s.store ==> s.store[k] == store[k]
    ensures Consistent(store) ==> Consistent(s.store)
  {
    if id !in store then Step(NotFound, store) else Step(Ok, store - {id})
  }

  /** The recorded failure count, a missing count reading as zero
      (`loginAttempts || 0`). */
  function Attempts(a: Account): nat {
    if a.loginAttempts.Some? then a.loginAttempts.value else 0
  }

  /** Login bookkeeping (`updateLoginStats`). An unknown id is ignored. */
  function UpdateLoginStats(store: Store, id: Id, success: bool, now: Millis): (r: Store)
    ensures id !in store ==> r == store
    ensures id in store ==> OnlyChanged(store, r, id)
    ensures id in store && success ==>
              r[id] == store[id].(loginAttempts := Some(0), lockUntil := None, lastLoginAt := Some(now))
    ensures id in store && !success ==>
              && Attempts(r[id]) == Attempts(store[id]) + 1
              && r[id].loginAttempts.Some?
              && r[id].lockUntil == (if Attempts(r[id]) >= MaxLoginAttempts then Some(now + LockWindow)
                                     else store[id].lockUntil)
              && r[id].lastLoginAt == store[id].lastLoginAt
              && r[id].passwordHash == store[id].passwordHash
              // only the count and the lock move
              && r[id] == store[id].(loginAttempts := r[id].loginAttempts, lockUntil := r[id].lockUntil)
    ensures Consistent(store) ==> Consistent(r)
  {
    if id !in store then store
    else
      var a := store[id];
      if success then
        store[id := a.(lastLoginAt := Some(now), loginAttempts := Some(0), lockUntil := None)]
      else
        var n := Attempts(a) + 1;
        store[id := a.(loginAttempts := Some(n),
                       lockUntil := if n >= MaxLoginAttempts then Some(now + LockWindow) else a.lockUntil)]
  }

  /** Claims of the session token issued on registration. */
  datatype Claims = Claims(email: string, id: Id, role: Role, isActive: bool, name: string)

  datatype Registration = Registration(result: Result, store: Store, claims: Option<Claims>)

  /** Register-and-issue-token (`registerUserOnAnyWeiste`): refuses when the
      signing secret is not configured, conflicts on an existing email
      (exact match), otherwise stores an active, verified account under
      the email as given and returns the claims its session token carries.
      A failed welcome mail does not change the outcome. */
  function RegisterUserOnAnyWebsite(store: Store, dto: NewUser, newId: Id, secretConfigured: bool,
                                    defaults: Defaults): (g: Registration)
    requires newId !in store
    ensures !secretConfigured ==> g == Registration(InternalError, store, None)
    ensures secretConfigured && EmailTaken(store, dto.email) ==> g == Registration(Conflict, store, None)
    ensures g.result == Ok <==> secretConfigured && !EmailTaken(store, dto.email)
    ensures g.result == Ok ==>
              && g.store.Keys == store.Keys + {newId}
              && (forall k :: k in store ==> g.store[k] == store[k])
              && g.store[newId].isVerified && g.store[newId].isActive
              && PasswordMatches(dto.password, g.store[newId].passwordHash)
              && g.store[newId].email == dto.email && g.store[newId].name == dto.name
              && g.store[newId].role == (if dto.role.Some? then dto.role.value else defaults.role)
              && g.store[newId].verificationToken.None?
              && Fresh(g.store[newId])
              // the token's claims are read from the stored account
              && g.claims == Some(Claims(g.store[newId].email, newId, g.store[newId].role,
                                         g.store[newId].isActive, g.store[newId].name))
    ensures Consistent(store) ==> Consistent(g.store)
  {
    if !secretConfigured then Registration(InternalError, store, None)
    else if ByEmail(store, dto.email).Some? then Registration(Conflict, store, None)
    else
      var a := Account(
        email := dto.email,
        name := dto.name,
        passwordHash := Hash(dto.password),
        role := if dto.role.Some? then dto.role.value else defaults.role,
        isVerified := true,
        isActive := true,
        verificationToken := None,
        resetPasswordToken := None,
        resetPasswordExpires := None,
        loginAttempts := None,
        lockUntil := None,
        lastLoginAt := None);
      Registration(Ok, store[newId := a], Some(Claims(a.email, newId, a.role, a.isActive, a.name)))
  }
}
